=== FILE: README.md ===
# Redis cluster node: a Dafny model

This project models the routing core of the deepstream Redis cluster-node plugin. It has two components.

- **`RedisClusterNode`**, the cluster message router. It keeps a dispatch table from topic to a set of listeners. The first listener registered for a topic makes the transport subscribe to that topic's channel. Outgoing messages are stamped with an envelope `{fromServer, toServer?, message}` and published on the channel named after the message's topic. Each inbound envelope is filtered and fanned out: parse failures, self-echoes, envelopes addressed to another server and unknown topics reach nobody. Otherwise every listener of the inner message's topic receives `(message, fromServer)`.
- **`RedisConnection`**, one connection to the transport. It validates its options, lets a connection URL override host, port and password, and picks cluster mode when `nodes` is an array. It holds a sticky readiness latch for `whenReady` and manages the `end` listeners during `close`.

Everything is written as pure functions over immutable datatypes. An operation returns the new state together with what it emits: transport commands (`Transport.Command`), log entries (`Logging.LogEntry`), the callers it resumes and the listeners that receive a message.

Files and modules:

- `wrappers.dfy` (`Wrappers`): `Option` and `Result`.
- `json_values.dfy` (`JsonValues`): the values JSON.parse produces, and JavaScript property reads. A read gives `undefined` or a value. Reading a property of `undefined` or `null` is a TypeError, modelled as `None`. When an object has several fields with one name, the last one wins.
- `decimal.dfy` (`Decimal`): `topic.toString()` for the numeric topics, with its inverse.
- `logging.dfy` (`Logging`) and `transport.dfy` (`Transport`): what the components emit.
- `envelope.dfy` (`Envelope`): messages, envelopes, how `JSON.stringify` writes them and how the receiver destructures them.
- `redis_connection.dfy` (`RedisConnection`): `src/redis-connection.ts`.
- `redis_cluster_node.dfy` (`RedisClusterNode`): `src/redis-cluster-node.ts`.

Two behaviours of the code worth noting:

- The check whose fatal text names `host` rejects only a missing options object. An options object without `host` is accepted.
- Inside `onMessage`, the self-echo check and the addressee check run before `message.topic` is read. So an envelope from this server, or one addressed to another server, is dropped silently even when it has no `message`. Only envelopes that pass both checks can produce the parse-error log for a missing `message`.

## Model

| member | source | states |
|---|---|---|
| JsonValues.Get | src/redis-cluster-node.ts:51 | a field read on a parsed object is defined exactly when some field has that name, and gives the last field of that name |
| JsonValues.ReadProperty | src/redis-cluster-node.ts:58 | reading a property throws exactly when the value is undefined or null. On an object it gives that object's field read; on any other value it gives undefined |
| JsonValues.GetIgnoresOtherKeys | src/redis-cluster-node.ts:51 | fields with other names written after a field do not change what a read of that field gives |
| JsonValues.GetFindsLastField | src/redis-cluster-node.ts:51 | a field followed only by fields with other names is the one a read finds |
| Decimal.NatToString | src/redis-cluster-node.ts:31-44 | the channel name `topic.toString()` is a non-empty run of decimal digits with no sign and no leading zero; it is "0" exactly for topic 0 |
| Decimal.DecimalRoundTrip | src/redis-cluster-node.ts:44 | the channel name `topic.toString()` reads back as the topic |
| Decimal.NatToStringInjective | src/redis-cluster-node.ts:44 | two topics share a channel name exactly when they are the same topic |
| Decimal.CanonicalDecimal | src/redis-cluster-node.ts:31-44 | the channel name of a topic is the only digit text without a leading zero that reads as that topic, so `"07"` is never a channel name |
| Envelope.Destructure | src/redis-cluster-node.ts:51 | destructuring fails exactly on null. An object gives its `fromServer`, `toServer` and `message` field reads; any other value gives three undefined properties |
| Envelope.MessageTopicRoundTrip | src/redis-cluster-node.ts:58 | the receiver reads a sent message's topic from the message's own `topic` field |
| Envelope.BroadcastFields | src/redis-cluster-node.ts:35 | a broadcast envelope reads back as its origin and message, with `toServer` undefined |
| Envelope.DirectFields | src/redis-cluster-node.ts:31 | a directed envelope reads back as its origin, its destination and its message |
| Envelope.RoundTrip | src/redis-cluster-node.ts:30-36 | for any envelope, the receiver reads back the same origin, the same optional destination, the same message and that message's topic |
| RedisConnection.ValidateOptions | src/redis-connection.ts:62-69 | missing options give the fatal "Missing option 'host'" error. Options whose `nodes` is truthy and not an array give the fatal cluster-nodes error. Nothing else is rejected |
| RedisConnection.NormaliseOptions | src/redis-connection.ts:15-20 | with a URL, host, port and password become the URL's hostname, port and password; without one the options are unchanged. url, nodes and other keys are never touched |
| RedisConnection.NormaliseIdempotent | src/redis-connection.ts:15-20 | applying the URL twice gives the same options as applying it once |
| RedisConnection.BuildClient | src/redis-connection.ts:22-28 | cluster mode exactly when `nodes` is an array. A cluster client gets those nodes, and its options have `nodes` removed. A single-node client gets the options unchanged. The caller's object is left as the client's options |
| RedisConnection.Create | src/redis-connection.ts:12-33 | construction fails with a fatal entry exactly when validation fails. Otherwise the connection starts not ready, with no waiters and with one disconnect listener on `end`. Its client is the one built from the options with the URL applied. So it is clustered exactly when `nodes` is an array, and it takes host, port and password from the URL when one is given. Without a URL they are kept as supplied |
| RedisConnection.LeftoverOptionsValidate | src/redis-connection.ts:62-69 | the options object a successful construction leaves behind passes validation again, so a second construction from it succeeds |
| RedisConnection.WhenReady | src/redis-connection.ts:35-39 | returns at once exactly when ready, with nothing registered; otherwise the caller joins the waiters |
| RedisConnection.OnReady | src/redis-connection.ts:49-52 | sets the flag, resumes exactly the callers waiting, in arrival order, and leaves none waiting |
| RedisConnection.Close | src/redis-connection.ts:41-47 | every earlier `end` listener is removed, exactly one completion for this caller is attached, and QUIT is sent |
| RedisConnection.OnError | src/redis-connection.ts:54-56 | a transport error is logged as fatal with the text "REDIS error: " followed by the error |
| RedisConnection.EmitEnd | src/redis-connection.ts:58-60 | every log entry of an `end` event is the fatal "disconnected" report, and only disconnect listeners are kept, one per log entry |
| RedisConnection.EmitEndCounts | src/redis-connection.ts:58-60 | an `end` event logs exactly one fatal disconnect per disconnect listener and completes each caller once per completion listener it has |
| RedisConnection.EmitEndInOrder | src/redis-connection.ts:41-60 | listeners run in order: the closes completed and the entries logged for `a + b` are those for `a` followed by those for `b` |
| RedisConnection.OnEnd | src/redis-connection.ts:41-60 | an `end` event completes a caller exactly when a completion listener for it is attached. It logs the fatal `Disconnected` entry once per disconnect listener still attached, and nothing else. The disconnect listeners stay attached, one per entry logged, and no close completion is left behind |
| RedisConnection.LatchAfterReady | src/redis-connection.ts:35-39 | once ready, every later `whenReady` returns at once, and no event makes anyone wait or resumes anyone |
| RedisConnection.LatchBeforeReady | src/redis-connection.ts:35-39 | until a `ready` event, every `whenReady` caller waits, in arrival order |
| RedisConnection.LatchFirstReady | src/redis-connection.ts:35-52 | the first `ready` event resumes every caller waiting by then, once each and in arrival order. Callers after it return at once |
| RedisConnection.Latch | src/redis-connection.ts:35-52 | over any sequence of calls and events, readiness is sticky and becomes true exactly when a `ready` event occurs. Waiters are released as the three cases above state |
| RedisConnection.EveryWaiterReleasedOnce | src/redis-connection.ts:35-52 | on a fresh connection that has become ready, each `whenReady` call has been released exactly once: at once, or by the event |
| RedisConnection.CloseThenEnd | src/redis-connection.ts:41-47 | `close` then `end` completes that close, sends one QUIT and logs no disconnect |
| RedisConnection.EndWithoutCloseIsFatal | src/redis-connection.ts:58-60 | on a new connection, `end` without `close` is logged as a fatal disconnect |
| RedisConnection.LatestCloseWins | src/redis-connection.ts:41-47 | after two `close` calls, an `end` event completes only the second one |
| RedisClusterNode.NewNodeAsWritten | src/redis-cluster-node.ts:14-20 | construction fails exactly when validation fails. The publish connection is the one `Create` builds from the configuration. The subscribe connection is the one built from the options object that the first construction left behind, and that second construction always succeeds |
| RedisClusterNode.SubscriberLosesClusterMode | src/redis-cluster-node.ts:17-18 | as written, a `nodes` array puts the publish connection in cluster mode and the subscribe connection in single-node mode |
| RedisClusterNode.NewNode | src/redis-cluster-node.ts:14-20 | the corrected constructor named under "## Findings", not the code as written. Construction fails exactly when validation fails. Otherwise the table is empty and each connection is exactly the one the connection constructor builds from the configuration as given, so both are identical and not ready, and clustered on the configured nodes exactly when `nodes` is an array |
| RedisClusterNode.Subscribe | src/redis-cluster-node.ts:38-47 | the listener joins its topic's set, which is created when the topic is new. A transport subscribe on `topic.toString()` is issued exactly when the topic is new. Other topics, the name and the connections are unchanged, and a table without empty entries stays so |
| RedisClusterNode.SubscribeIdempotent | src/redis-cluster-node.ts:40-46 | registering the same listener again leaves the node as after the first registration and issues no command |
| RedisClusterNode.SubscribeAllTable | src/redis-cluster-node.ts:40-46 | after any run of registrations, each topic's set is its earlier listeners plus exactly those registered for it |
| RedisClusterNode.SubscribeAllCommands | src/redis-cluster-node.ts:40-46 | after any run of registrations, a topic's channel has been subscribed once if the topic was new and registered, and never otherwise |
| RedisClusterNode.TwoListenersOneSubscription | src/redis-cluster-node.ts:40-46 | two listeners for one new topic give one transport subscribe and a set holding both |
| RedisClusterNode.Lookup | src/redis-cluster-node.ts:58 | a set is found exactly when the inner topic is a number that is a registered topic |
| RedisClusterNode.OnMessage | src/redis-cluster-node.ts:49-68 | delivery happens exactly when the payload parses, the envelope passes the filter and the inner topic has a non-empty set. Delivery is to that whole set, with the message and `fromServer` as read. Each drop reason holds exactly when its condition does. A self-echo or a wrong addressee drops silently. A parse failure drops with one error log: bad text, null, no readable `message.topic` after the filter, or an unregistered inner topic that cannot be written into the unknown-topic log text. An unknown topic drops with the one PLUGIN_ERROR "unknown topic" entry that carries the inner topic as read |
| RedisClusterNode.UnknownMeansUnregistered | src/redis-cluster-node.ts:58-62 | when no set in the table is empty, as `Subscribe` keeps it, an admitted envelope is dropped as unknown exactly when its inner topic is not registered and can be written as text |
| RedisClusterNode.UnprintableTopicIsParseError | src/redis-cluster-node.ts:58-65 | every admitted envelope whose inner topic cannot be written as text (an object with its own `toString` field, or an array holding one) is dropped as a parse error with the parse-error log, whatever the table and the channel |
| RedisClusterNode.UnprintableTopicExample | src/redis-cluster-node.ts:58-65 | the broadcast `{"fromServer":"s2","message":{"topic":{"toString":0}}}` received at server "s1" is a parse error, whatever the table holds |
| RedisClusterNode.ChannelIgnored | src/redis-cluster-node.ts:49-58 | the channel a payload arrived on does not change what happens to it |
| RedisClusterNode.Send | src/redis-cluster-node.ts:34-36 | publishes on `Channel(m.topic)`, the decimal text of the topic, which reads back as the topic. The envelope reads back as this server, no destination, and the message. `Subscribe` uses the same channel name for the topic |
| RedisClusterNode.SendDirect | src/redis-cluster-node.ts:30-32 | publishes on `Channel(m.topic)`, the decimal text of the topic, which reads back as the topic. The envelope reads back as this server, the destination, and the message |
| RedisClusterNode.Broadcast | src/redis-cluster-node.ts:34-63 | another server delivers a broadcast to all of its listeners for the topic, with the message as sent and the sender's name. The sender itself drops it as a self-echo |
| RedisClusterNode.Direct | src/redis-cluster-node.ts:30-63 | a directed message is delivered by the named server only; any other server drops it as addressed elsewhere, and the sender as a self-echo |
| RedisClusterNode.WhenReady | src/redis-cluster-node.ts:22-24 | does on the publish connection exactly what that connection's `whenReady` does, returning at once exactly when it is ready. The table and the subscribe connection are unchanged |
| RedisClusterNode.WaiterResumedByPublisher | src/redis-cluster-node.ts:22-24 | a suspended caller of the node's `whenReady` is resumed by the publish connection's `ready` event and not by the subscribe connection's |
| RedisClusterNode.Close | src/redis-cluster-node.ts:26-28 | quits the publish connection only: that connection becomes exactly what the connection's `close` makes it, and the name, the table and the subscribe connection are unchanged |
| RedisClusterNode.CloseCoversPublisherOnly | src/redis-cluster-node.ts:26-28 | on any node whose two connections carry only the disconnect report, `close` completes on the publish connection's `end` without a disconnect report, while an `end` on the subscribe connection is still a fatal disconnect |
| RedisClusterNode.CloseCoversPublisherOnlyAsWritten | src/redis-cluster-node.ts:14-28 | the same holds for a node built by the constructor as written |

## Findings

| source | as written | input that shows it | evidently intended | confidence | as-written member | corrected member |
|---|---|---|---|---|---|---|
| src/redis-cluster-node.ts:17-18 | Both connections are built from the same options object. The first constructor deletes `nodes` from that object (src/redis-connection.ts:24), so the second one sees no `nodes` | plugin options `{nodes: [{host: "a", port: 7000}]}`: the publish connection is a cluster client and the subscribe connection is a single-node client | both connections use the configured cluster | likely; not executed | RedisClusterNode.SubscriberLosesClusterMode (over RedisClusterNode.NewNodeAsWritten) | RedisClusterNode.NewNode |

## Left out

- The ioredis client and the network. `publish`, `subscribe` and `quit` are returned as `Transport.Command` values. Cluster and single-node connection behaviour is not modelled; only the chosen mode and its options are.
- JSON text syntax. An inbound payload is `Option<Json>`, where `None` stands for text that JSON.parse rejects. Numbers are integers; floating point is not modelled.
- WHATWG URL parsing. A URL option is given already decomposed into hostname, port and password. A URL that the parser rejects throws from the constructor; that path is not modelled.
- Promises, async/await and EventEmitter. Suspension is a list of waiting caller identities. A `close` completion is a listener record on the `end` event. The `ready` and `error` listeners that the constructor attaches are represented by `OnReady` and `OnError` themselves. The `message` listener wiring at src/redis-cluster-node.ts:19 is represented by `OnMessage` itself.
- The logger. Only the level, the event name and what the entry is about are kept. The enum names in the debug text of `subscribe` are not rendered. The fact that `fatal` ends the process is external. So construction stops at the first fatal error, and what the constructor would do if `fatal` returned is not modelled. In that case a missing options object would throw on `options.nodes`.
- RedisClusterNode.OnMessage: a listener that throws is not modelled. In the source such an exception is caught by the same `try` and logged as a parse error, and the remaining listeners are skipped. The model delivers to every listener.
- RedisClusterNode.OnMessage: listeners are a set. The order in which the source's `Set` calls them, which is insertion order, is not modelled.
- JsonValues.Get: only own fields of parsed JSON are read. Inherited JavaScript properties, such as `length` on strings and arrays or `toString` and `constructor` on objects, are not modelled. The contract holds for the four keys the source reads (`fromServer`, `toServer`, `message`, `topic`), not for those inherited names.
- JsonValues.ReadProperty: for the same reason, a non-object value gives undefined for every key, which matches the source only for those four keys.
- The plugin base class, the `description` version string, and the contents of the `TOPIC`/`STATE_REGISTRY_TOPIC` enumerations. Topics are natural numbers, and their channel name is their decimal text.

=== FILE: decimal.dfy ===
/**
 The decimal text of a non-negative integer. Topics are small numeric
 enumeration values, and for those this is the text `Number.prototype.toString`
 writes, which names the transport channel that carries a topic.
 */
module Decimal {
  import opened Wrappers

  predicate IsDigit(c: char)
  {
    '0' <= c <= '9'
  }

  predicate AllDigits(s: string)
  {
    forall i :: 0 <= i < |s| ==> IsDigit(s[i])
  }

  function DigitChar(d: nat): (c: char)
    requires d < 10
    ensures IsDigit(c) && c as int - '0' as int == d
  {
    ('0' as int + d) as char
  }

  /** The text `toString` writes for a topic: no sign and no leading zero. */
  function NatToString(n: nat): (s: string)
    ensures |s| >= 1 && AllDigits(s)
    ensures n == 0 <==> s == "0"
    ensures n > 0 ==> s[0] != '0'
    decreases n
  {
    if n < 10 then [DigitChar(n)] else NatToString(n / 10) + [DigitChar(n % 10)]
  }

  function DigitsValue(s: string): (v: nat)
    requires AllDigits(s)
    decreases |s|
  {
    if |s| == 0 then 0
    else DigitsValue(s[..|s| - 1]) * 10 + (s[|s| - 1] as int - '0' as int)
  }

  /** Reads a channel name back as a topic; None for text that is not decimal. */
  function ParseDecimal(s: string): (r: Option<nat>)
  {
    if |s| > 0 && AllDigits(s) then Some(DigitsValue(s)) else None
  }

  /** Reading a topic's channel name gives back the topic. */
  lemma {:induction false} DecimalRoundTrip(n: nat)
    ensures ParseDecimal(NatToString(n)) == Some(n)
    decreases n
  {
    if n >= 10 {
      DecimalRoundTrip(n / 10);
      var s := NatToString(n);
      assert s[..|s| - 1] == NatToString(n / 10);
      assert s[|s| - 1] == DigitChar(n % 10);
      assert DigitsValue(s) == (n / 10) * 10 + n % 10;
    }
  }

  /** Distinct topics are carried on distinct channels. */
  lemma NatToStringInjective(a: nat, b: nat)
    ensures NatToString(a) == NatToString(b) <==> a == b
  {
    DecimalRoundTrip(a);
    DecimalRoundTrip(b);
  }

  /** A decimal text without a leading zero has a positive value. */
  lemma {:induction false} LeadingDigitPositive(s: string)
    requires |s| >= 1 && AllDigits(s) && s[0] != '0'
    ensures DigitsValue(s) >= 1
    decreases |s|
  {
    if |s| > 1 {
      var init := s[..|s| - 1];
      assert init[0] == s[0];
      LeadingDigitPositive(init);
    }
  }

  /**
   The channel name of a topic is the only decimal text of that topic
   without a leading zero: any such text that reads as `n` is `NatToString(n)`.
   */
  lemma {:induction false} CanonicalDecimal(s: string, n: nat)
    requires |s| >= 1 && (s[0] != '0' || s == "0")
    requires ParseDecimal(s) == Some(n)
    ensures s == NatToString(n)
    decreases |s|
  {
    if |s| == 1 {
      assert DigitsValue(s) == DigitsValue(s[..0]) * 10 + (s[0] as int - '0' as int);
      assert NatToString(n) == [DigitChar(n)];
    } else {
      var init := s[..|s| - 1];
      assert init[0] == s[0];
      assert s[0] != '0';
      assert AllDigits(init);
      LeadingDigitPositive(init);
      var d := s[|s| - 1] as int - '0' as int;
      assert n == DigitsValue(init) * 10 + d;
      assert n / 10 == DigitsValue(init) && n % 10 == d;
      CanonicalDecimal(init, n / 10);
      assert s == init + [s[|s| - 1]];
      assert DigitChar(n % 10) == s[|s| - 1];
    }
  }
}

=== FILE: envelope.dfy ===
/**
 The cluster envelope `{fromServer, toServer?, message}`: how it is written
 with JSON.stringify and how the receiver destructures it.
 */
module Envelope {
  import opened Wrappers
  import opened JsonValues
  import Decimal

  /** Topics are members of a numeric enumeration. */
  type Topic = nat

  datatype MessageData = MessageData(topic: Topic, body: seq<(string, Json)>)

  /**
   An application message: its topic and its other fields. A JavaScript object
   has one field per name, so no other field is called "topic".
   */
  type Message = m: MessageData | !HasKey(m.body, "topic") witness MessageData(0, [])

  /** The JSON written for a message; the topic field comes first. */
  function MessageJson(m: Message): (j: Json)
  {
    JObj([("topic", JNum(m.topic))] + m.body)
  }

  /** The transport channel a topic is published and subscribed on (`topic.toString()`). */
  function Channel(t: Topic): (name: string)
  {
    Decimal.NatToString(t)
  }

  datatype Envelope = Envelope(fromServer: string, toServer: Option<string>, message: Message)

  /** JSON.stringify of the envelope object; an absent `toServer` writes no field. */
  function Encode(e: Envelope): (j: Json)
  {
    var to := match e.toServer
      case None => []
      case Some(name) => [("toServer", JStr(name))];
    JObj([("fromServer", JStr(e.fromServer))] + to + [("message", MessageJson(e.message))])
  }

  /** What `toServer` reads as on the receiving side. */
  function AsProperty(name: Option<string>): (p: Property)
  {
    match name
    case None => Undefined
    case Some(s) => Defined(JStr(s))
  }

  /** The three properties read by `const { fromServer, toServer, message } = ...`. */
  datatype Fields = Fields(fromServer: Property, toServer: Property, message: Property)

  /**
   Destructuring a parsed payload. Destructuring null throws; any value other
   than an object has none of the three properties.
   */
  function Destructure(j: Json): (r: Option<Fields>)
    ensures r.None? <==> j == JNull
    ensures r.Some? && j.JObj? ==> r.value.message.Defined? == HasKey(j.fields, "message")
    ensures j.JObj? ==> r == Some(Fields(Get(j.fields, "fromServer"), Get(j.fields, "toServer"), Get(j.fields, "message")))
    ensures !j.JObj? && j != JNull ==> r == Some(Fields(Undefined, Undefined, Undefined))
  {
    match j
    case JNull => None
    case JObj(fs) => Some(Fields(Get(fs, "fromServer"), Get(fs, "toServer"), Get(fs, "message")))
    case _ => Some(Fields(Undefined, Undefined, Undefined))
  }

  /** `message.topic`, None when it throws. */
  function InnerTopic(message: Property): (topic: Option<Property>)
  {
    ReadProperty(message, "topic")
  }

  /** The receiver reads a message's topic from its own "topic" field. */
  lemma MessageTopicRoundTrip(m: Message)
    ensures InnerTopic(Defined(MessageJson(m))) == Some(Defined(JNum(m.topic)))
  {
    var topic := ("topic", JNum(m.topic));
    GetFindsLastField([], "topic", topic.1, m.body);
    assert [] + [topic] + m.body == MessageJson(m).fields;
  }

  /** Reading the fields of a broadcast envelope, as JSON.stringify writes it. */
  lemma BroadcastFields(from: string, message: Json)
    ensures Destructure(JObj([("fromServer", JStr(from)), ("message", message)]))
         == Some(Fields(Defined(JStr(from)), Undefined, Defined(message)))
  {
    var fs := [("fromServer", JStr(from)), ("message", message)];
    assert fs[..1] == [("fromServer", JStr(from))];
    assert Get(fs, "fromServer") == Defined(JStr(from));
    assert Get(fs, "toServer") == Undefined;
  }

  /** Reading the fields of a directed envelope, as JSON.stringify writes it. */
  lemma DirectFields(from: string, to: string, message: Json)
    ensures Destructure(JObj([("fromServer", JStr(from)), ("toServer", JStr(to)), ("message", message)]))
         == Some(Fields(Defined(JStr(from)), Defined(JStr(to)), Defined(message)))
  {
    var fs := [("fromServer", JStr(from)), ("toServer", JStr(to)), ("message", message)];
    assert fs[..2] == [("fromServer", JStr(from)), ("toServer", JStr(to))];
    assert fs[..2][..1] == [("fromServer", JStr(from))];
    assert Get(fs, "toServer") == Defined(JStr(to));
    assert Get(fs, "fromServer") == Get(fs[..2], "fromServer") == Get(fs[..2][..1], "fromServer");
  }

  /**
   Round trip: the receiver reads back exactly the origin, the destination
   and the message that were written, and the message's own topic.
   */
  lemma RoundTrip(e: Envelope)
    ensures Destructure(Encode(e))
         == Some(Fields(Defined(JStr(e.fromServer)), AsProperty(e.toServer), Defined(MessageJson(e.message))))
    ensures InnerTopic(Defined(MessageJson(e.message))) == Some(Defined(JNum(e.message.topic)))
  {
    MessageTopicRoundTrip(e.message);
    var from := ("fromServer", JStr(e.fromServer));
    var msg := ("message", MessageJson(e.message));
    match e.toServer
    case None =>
      assert Encode(e).fields == [from, msg];
      BroadcastFields(e.fromServer, msg.1);
    case Some(name) =>
      assert Encode(e).fields == [from, ("toServer", JStr(name)), msg];
      DirectFields(e.fromServer, name, msg.1);
  }
}

=== FILE: json_values.dfy ===
/**
 The values JSON.parse produces and the way JavaScript reads properties off
 them. Only integers are modelled as numbers.
 */
module JsonValues {
  import opened Wrappers

  datatype Json =
    | JNull
    | JBool(b: bool)
    | JNum(n: int)
    | JStr(s: string)
    | JArr(items: seq<Json>)
    | JObj(fields: seq<(string, Json)>)

  /** The result of a JavaScript property read: `undefined`, or a JSON value. */
  datatype Property = Undefined | Defined(value: Json)

  /** Some field of `fields` carries the name `key`. */
  predicate HasKey(fields: seq<(string, Json)>, key: string)
  {
    exists i :: 0 <= i < |fields| && fields[i].0 == key
  }

  /**
   Field lookup in a parsed object. JSON.parse keeps the last of several
   fields with the same name, so the search runs from the end.
   */
  function Get(fields: seq<(string, Json)>, key: string): (p: Property)
    ensures p.Defined? <==> HasKey(fields, key)
    ensures p.Defined? ==>
              exists i :: 0 <= i < |fields| && fields[i] == (key, p.value)
                          && forall j :: i < j < |fields| ==> fields[j].0 != key
    decreases |fields|
  {
    if |fields| == 0 then Undefined
    else if fields[|fields| - 1].0 == key then Defined(fields[|fields| - 1].1)
    else
      var init := fields[..|fields| - 1];
      assert forall i :: 0 <= i < |init| ==> init[i] == fields[i];
      Get(init, key)
  }

  /**
   `obj.key` in JavaScript: None when `obj` is undefined or null (a
   TypeError). The keys read by this model are not inherited properties of
   strings, numbers, booleans or arrays, so reading them there gives undefined.
   */
  function ReadProperty(obj: Property, key: string): (r: Option<Property>)
    ensures r.None? <==> obj == Undefined || obj == Defined(JNull)
    ensures r.Some? && r.value.Defined? ==> obj.Defined? && obj.value.JObj? && HasKey(obj.value.fields, key)
    ensures obj.Defined? && obj.value.JObj? ==> r == Some(Get(obj.value.fields, key))
    ensures obj.Defined? && !obj.value.JObj? && obj.value != JNull ==> r == Some(Undefined)
  {
    match obj
    case Undefined => None
    case Defined(JNull) => None
    case Defined(JObj(fields)) => Some(Get(fields, key))
    case Defined(_) => Some(Undefined)
  }

  /**
   Converting a value to text, as a template literal does, throws. A parsed
   object with its own `toString` field has no callable `toString`, and the
   inherited `valueOf` returns the object itself, so the conversion fails. An
   array converts its items the same way. Every other value converts.
   */
  predicate ToStringThrows(j: Json)
  {
    match j
    case JObj(fields) => HasKey(fields, "toString")
    case JArr(items) => exists i :: 0 <= i < |items| && ToStringThrows(items[i])
    case _ => false
  }

  /** JavaScript truthiness of a property value. */
  predicate Truthy(p: Property)
  {
    match p
    case Undefined => false
    case Defined(JNull) => false
    case Defined(JBool(b)) => b
    case Defined(JNum(n)) => n != 0
    case Defined(JStr(s)) => s != ""
    case Defined(_) => true
  }

  /** Fields appended after the last `key` field do not change what `key` reads. */
  lemma {:induction false} GetIgnoresOtherKeys(prefix: seq<(string, Json)>, suffix: seq<(string, Json)>, key: string)
    requires !HasKey(suffix, key)
    ensures Get(prefix + suffix, key) == Get(prefix, key)
    decreases |suffix|
  {
    if |suffix| > 0 {
      var all := prefix + suffix;
      var shorter := suffix[..|suffix| - 1];
      assert all[|all| - 1] == suffix[|suffix| - 1];
      assert all[..|all| - 1] == prefix + shorter;
      assert !HasKey(shorter, key) by {
        assert forall i :: 0 <= i < |shorter| ==> shorter[i] == suffix[i];
      }
      GetIgnoresOtherKeys(prefix, shorter, key);
    } else {
      assert prefix + suffix == prefix;
    }
  }

  /** A field followed only by fields with other names is the one a read finds. */
  lemma GetFindsLastField(prefix: seq<(string, Json)>, key: string, v: Json, suffix: seq<(string, Json)>)
    requires !HasKey(suffix, key)
    ensures Get(prefix + [(key, v)] + suffix, key) == Defined(v)
  {
    GetIgnoresOtherKeys(prefix + [(key, v)], suffix, key);
    var s := prefix + [(key, v)];
    assert s[|s| - 1] == (key, v);
  }
}

=== FILE: logging.dfy ===
/**
 The entries the components hand to the logging collaborator. Only the level,
 the event name and what the text is about are kept; rendering the text of
 interpolated values is left to the logger.
 */
module Logging {
  import opened JsonValues

  datatype Level = Debug | Error | Fatal

  datatype Detail =
    | Text(text: string)
    | NewSubscription(topic: nat)
    | MessageForUnknownTopic(received: Property)
    | ParseError

  datatype LogEntry = LogEntry(level: Level, event: string, detail: Detail)
}

=== FILE: redis_cluster_node.dfy ===
/**
 The cluster message router: the topic-to-listener dispatch table, lazy
 transport subscription, envelope stamping on send, and the filtering and
 fan-out of inbound envelopes. Commands returned by `Subscribe` go to the
 subscribe connection; those returned by `Send`, `SendDirect` and `Close` go
 to the publish connection.
 */
module RedisClusterNode {
  import opened Wrappers
  import opened JsonValues
  import opened Logging
  import opened Transport
  import opened Envelope
  import Decimal
  import Conn = RedisConnection

  /** Listener callbacks are compared by identity. */
  type ListenerId = nat

  type Table = map<Topic, set<ListenerId>>

  datatype Node = Node(
    serverName: string,
    callbacks: Table,
    connection: Conn.Connection,
    subscribeConnection: Conn.Connection)

  /** Every topic in the table has a listener. */
  predicate NoEmptyEntries(table: Table)
  {
    forall t :: t in table ==> table[t] != {}
  }

  /**
   The constructor as written: the second connection is built from the
   options object the first one has already mutated.
   */
  function NewNodeAsWritten(serverName: string, pluginConfig: Option<Conn.Options>): (r: Result<Node, LogEntry>)
    ensures r.Failure? <==> Conn.ValidateOptions(pluginConfig).Some?
    ensures r.Success? ==>
              var publisher := Conn.Create(pluginConfig).value;
              && r.value.serverName == serverName
              && r.value.callbacks == map[]
              && r.value.connection == publisher.connection
              && Conn.Create(Some(publisher.options)).Success?
              && r.value.subscribeConnection == Conn.Create(Some(publisher.options)).value.connection
  {
    match Conn.Create(pluginConfig)
    case Failure(fatal) => Failure(fatal)
    case Success(publisher) =>
      Conn.LeftoverOptionsValidate(pluginConfig);
      match Conn.Create(Some(publisher.options))
      case Failure(fatal) => Failure(fatal)
      case Success(subscriber) =>
        Success(Node(serverName, map[], publisher.connection, subscriber.connection))
  }

  /**
   With a `nodes` array, the constructor as written leaves the subscribe
   connection in single-node mode while the publish connection is clustered.
   */
  lemma SubscriberLosesClusterMode(serverName: string, o: Conn.Options, items: seq<Json>)
    requires o.nodes == Defined(JArr(items))
    ensures var r := NewNodeAsWritten(serverName, Some(o));
            && r.Success?
            && r.value.connection.client.Cluster?
            && r.value.subscribeConnection.client.Single?
  {
  }

  /**
   The constructor with both connections built from the configuration as
   given: they use the same client mode and options, and the table starts
   empty.
   */
  function NewNode(serverName: string, pluginConfig: Option<Conn.Options>): (r: Result<Node, LogEntry>)
    ensures r.Failure? <==> Conn.ValidateOptions(pluginConfig).Some?
    ensures r.Success? ==>
              && r.value.serverName == serverName
              && r.value.callbacks == map[]
              && r.value.connection == Conn.Create(pluginConfig).value.connection
              && r.value.connection == r.value.subscribeConnection
              && !r.value.connection.isReady
              && (r.value.subscribeConnection.client.Cluster? <==>
                    pluginConfig.value.nodes.Defined? && pluginConfig.value.nodes.value.JArr?)
  {
    match Conn.Create(pluginConfig)
    case Failure(fatal) => Failure(fatal)
    case Success(built) =>
      var subscriber := Conn.Create(pluginConfig);
      Success(Node(serverName, map[], built.connection, subscriber.value.connection))
  }

  datatype Registration = Registration(node: Node, commands: seq<Command>, log: seq<LogEntry>)

  /**
   `subscribe`: the first listener for a topic creates its set and subscribes
   the transport to the topic's channel; later ones only join the set.
   */
  function Subscribe(n: Node, topic: Topic, callback: ListenerId): (r: Registration)
    ensures r.log == [LogEntry(Debug, "INFO", NewSubscription(topic))]
    ensures topic in r.node.callbacks && callback in r.node.callbacks[topic]
    ensures topic in n.callbacks ==> r.node.callbacks[topic] == n.callbacks[topic] + {callback}
    ensures topic !in n.callbacks ==> r.node.callbacks[topic] == {callback}
    ensures forall t :: t != topic ==> (t in r.node.callbacks <==> t in n.callbacks)
    ensures forall t :: t != topic && t in n.callbacks ==> r.node.callbacks[t] == n.callbacks[t]
    ensures topic !in n.callbacks <==> r.commands == [SubscribeTo(Channel(topic))]
    ensures topic in n.callbacks <==> r.commands == []
    ensures r.node.serverName == n.serverName
    ensures r.node.connection == n.connection && r.node.subscribeConnection == n.subscribeConnection
    ensures NoEmptyEntries(n.callbacks) ==> NoEmptyEntries(r.node.callbacks)
  {
    var log := [LogEntry(Debug, "INFO", NewSubscription(topic))];
    if topic in n.callbacks then
      Registration(n.(callbacks := n.callbacks[topic := n.callbacks[topic] + {callback}]), [], log)
    else
      Registration(n.(callbacks := n.callbacks[topic := {callback}]), [SubscribeTo(Channel(topic))], log)
  }

  /** Registering the same listener again changes nothing and subscribes nothing. */
  lemma SubscribeIdempotent(n: Node, topic: Topic, callback: ListenerId)
    ensures var first := Subscribe(n, topic, callback);
            var again := Subscribe(first.node, topic, callback);
            again.node == first.node && again.commands == []
  {
    var first := Subscribe(n, topic, callback);
    assert first.node.callbacks[topic] + {callback} == first.node.callbacks[topic];
    assert first.node.callbacks[topic := first.node.callbacks[topic]] == first.node.callbacks;
  }

  /** A run of registrations, in order. */
  function SubscribeAll(n: Node, regs: seq<(Topic, ListenerId)>): (r: Registration)
    decreases |regs|
  {
    if |regs| == 0 then Registration(n, [], [])
    else
      var before := SubscribeAll(n, regs[..|regs| - 1]);
      var last := Subscribe(before.node, regs[|regs| - 1].0, regs[|regs| - 1].1);
      Registration(last.node, before.commands + last.commands, before.log + last.log)
  }

  /** The listeners registered for `topic` in `regs`. */
  function ListenersFor(regs: seq<(Topic, ListenerId)>, topic: Topic): (listeners: set<ListenerId>)
    decreases |regs|
  {
    if |regs| == 0 then {}
    else ListenersFor(regs[..|regs| - 1], topic) + (if regs[|regs| - 1].0 == topic then {regs[|regs| - 1].1} else {})
  }

  /** How many transport subscriptions to `channel` the commands hold. */
  function SubscriptionsTo(commands: seq<Command>, channel: string): (count: nat)
    decreases |commands|
  {
    if |commands| == 0 then 0
    else SubscriptionsTo(commands[..|commands| - 1], channel)
         + (if commands[|commands| - 1] == SubscribeTo(channel) then 1 else 0)
  }

  lemma {:induction false} SubscriptionsToAppend(a: seq<Command>, b: seq<Command>, channel: string)
    ensures SubscriptionsTo(a + b, channel) == SubscriptionsTo(a, channel) + SubscriptionsTo(b, channel)
    decreases |b|
  {
    if |b| > 0 {
      assert (a + b)[..|a + b| - 1] == a + b[..|b| - 1];
      SubscriptionsToAppend(a, b[..|b| - 1], channel);
    } else {
      assert a + b == a;
    }
  }

  /** The listeners a table holds for a topic, none when the topic is absent. */
  function Prior(table: Table, t: Topic): (listeners: set<ListenerId>)
  {
    if t in table then table[t] else {}
  }

  /**
   After any run of registrations, a topic is in the table when it was there
   before or has been registered, and its set holds its earlier listeners and
   exactly the listeners registered for it.
   */
  lemma {:induction false} SubscribeAllTable(n: Node, regs: seq<(Topic, ListenerId)>)
    ensures var r := SubscribeAll(n, regs);
            forall t :: t in r.node.callbacks <==> t in n.callbacks || ListenersFor(regs, t) != {}
    ensures var r := SubscribeAll(n, regs);
            forall t :: t in r.node.callbacks ==> r.node.callbacks[t] == Prior(n.callbacks, t) + ListenersFor(regs, t)
    decreases |regs|
  {
    if |regs| > 0 {
      var init := regs[..|regs| - 1];
      var (topic, callback) := regs[|regs| - 1];
      SubscribeAllTable(n, init);
      var before := SubscribeAll(n, init);
      var last := Subscribe(before.node, topic, callback);
      forall t
        ensures ListenersFor(regs, t) == ListenersFor(init, t) + (if t == topic then {callback} else {})
      {
      }
    }
  }

  /**
   After any run of registrations, the transport has been subscribed to a
   topic's channel once if the topic was new and has been registered, and
   never otherwise.
   */
  lemma {:induction false} SubscribeAllCommands(n: Node, regs: seq<(Topic, ListenerId)>)
    ensures var r := SubscribeAll(n, regs);
            forall t :: SubscriptionsTo(r.commands, Channel(t))
                        == (if t !in n.callbacks && ListenersFor(regs, t) != {} then 1 else 0)
    decreases |regs|
  {
    if |regs| > 0 {
      var init := regs[..|regs| - 1];
      var (topic, callback) := regs[|regs| - 1];
      SubscribeAllCommands(n, init);
      SubscribeAllTable(n, init);
      var before := SubscribeAll(n, init);
      var last := Subscribe(before.node, topic, callback);
      forall t
        ensures SubscriptionsTo(before.commands + last.commands, Channel(t))
                == (if t !in n.callbacks && ListenersFor(regs, t) != {} then 1 else 0)
      {
        assert ListenersFor(regs, t) == ListenersFor(init, t) + (if t == topic then {callback} else {});
        SubscriptionsToAppend(before.commands, last.commands, Channel(t));
        Decimal.NatToStringInjective(t, topic);
        if topic in before.node.callbacks {
          assert last.commands == [];
        } else {
          assert last.commands == [] + [SubscribeTo(Channel(topic))];
          assert SubscriptionsTo(last.commands, Channel(t)) == (if t == topic then 1 else 0);
        }
      }
    }
  }

  /**
   Two listeners registered for one topic on a fresh node: one transport
   subscription to the topic's channel, and both listeners in its set.
   */
  lemma TwoListenersOneSubscription(n: Node, topic: Topic, a: ListenerId, b: ListenerId)
    requires topic !in n.callbacks
    ensures var r := SubscribeAll(n, [(topic, a), (topic, b)]);
            SubscriptionsTo(r.commands, Channel(topic)) == 1 && r.node.callbacks[topic] == {a, b}
  {
    var regs: seq<(Topic, ListenerId)> := [(topic, a), (topic, b)];
    SubscribeAllTable(n, regs);
    SubscribeAllCommands(n, regs);
    assert regs[..1] == [(topic, a)];
    assert |regs[..1][..0]| == 0;
    assert ListenersFor(regs[..1], topic) == {a};
    assert ListenersFor(regs, topic) == {a, b};
  }

  /** Why an inbound payload reaches nobody. */
  datatype Drop = ParseFailure | SelfEcho | AddressedElsewhere | UnknownTopic

  datatype Dispatch =
    | Dropped(reason: Drop, log: seq<LogEntry>)
    | Delivered(listeners: set<ListenerId>, message: Json, origin: Property)

  const ParseErrorLog := LogEntry(Error, "PLUGIN_ERROR", ParseError)

  function UnknownTopicLog(received: Property): (entry: LogEntry)
  {
    LogEntry(Error, "PLUGIN_ERROR", MessageForUnknownTopic(received))
  }

  /** `callbacks.get(topic)`: only a number equal to a registered topic finds a set. */
  function Lookup(table: Table, topic: Property): (r: Option<set<ListenerId>>)
    ensures r.Some? <==> exists t: Topic :: topic == Defined(JNum(t)) && t in table
    ensures r.Some? ==> r.value == table[topic.value.n]
  {
    if topic.Defined? && topic.value.JNum? && topic.value.n >= 0 && topic.value.n in table
    then Some(table[topic.value.n])
    else None
  }

  /**
   Writing the inner topic into the unknown-topic log text throws; the
   surrounding `try` then reports a parse error instead.
   */
  predicate TopicTextThrows(topic: Property)
  {
    topic.Defined? && ToStringThrows(topic.value)
  }

  /** The envelope filter: not from this server, and broadcast or addressed to it. */
  predicate Admits(serverName: string, f: Fields)
  {
    && f.fromServer != Defined(JStr(serverName))
    && (f.toServer == Undefined || f.toServer == Defined(JStr(serverName)))
  }

  /** The unknown-topic report, or a parse error when the topic cannot be written as text. */
  function Unknown(topic: Property): (d: Dispatch)
  {
    if TopicTextThrows(topic) then Dropped(ParseFailure, [ParseErrorLog])
    else Dropped(UnknownTopic, [UnknownTopicLog(topic)])
  }

  /**
   `onMessage`: decides who receives one inbound payload (None is text that
   JSON.parse rejects). The channel it arrived on plays no part, and the
   table is only read.
   */
  function OnMessage(n: Node, channel: string, payload: Option<Json>): (d: Dispatch)
    ensures payload.None? ==> d == Dropped(ParseFailure, [ParseErrorLog])
    ensures d.Dropped? && d.reason == ParseFailure ==> d.log == [ParseErrorLog]
    ensures d.Dropped? && d.reason in {SelfEcho, AddressedElsewhere} ==> d.log == []
    ensures d.Delivered? <==>
              && payload.Some?
              && Destructure(payload.value).Some?
              && Admits(n.serverName, Destructure(payload.value).value)
              && exists t: Topic ::
                   && InnerTopic(Destructure(payload.value).value.message) == Some(Defined(JNum(t)))
                   && t in n.callbacks && n.callbacks[t] != {}
    ensures d.Delivered? ==>
              var f := Destructure(payload.value).value;
              && d.origin == f.fromServer
              && f.message == Defined(d.message)
              && d.listeners == n.callbacks[InnerTopic(f.message).value.value.n]
    ensures d.Dropped? && d.reason == SelfEcho <==>
              payload.Some? && Destructure(payload.value).Some?
              && Destructure(payload.value).value.fromServer == Defined(JStr(n.serverName))
    ensures d.Dropped? && d.reason == AddressedElsewhere <==>
              && payload.Some? && Destructure(payload.value).Some?
              && var f := Destructure(payload.value).value;
                 && f.fromServer != Defined(JStr(n.serverName))
                 && f.toServer != Undefined && f.toServer != Defined(JStr(n.serverName))
    ensures d.Dropped? && d.reason == ParseFailure <==>
              || payload.None?
              || Destructure(payload.value).None?
              || (&& Admits(n.serverName, Destructure(payload.value).value)
                  && var topic := InnerTopic(Destructure(payload.value).value.message);
                     topic.None? || TopicTextThrows(topic.value))
    ensures d.Dropped? && d.reason == UnknownTopic <==>
              && payload.Some? && Destructure(payload.value).Some?
              && Admits(n.serverName, Destructure(payload.value).value)
              && var topic := InnerTopic(Destructure(payload.value).value.message);
                 && topic.Some? && !TopicTextThrows(topic.value)
                 && !exists t: Topic :: topic.value == Defined(JNum(t)) && t in n.callbacks && n.callbacks[t] != {}
    ensures d.Dropped? && d.reason == UnknownTopic ==>
              d.log == [UnknownTopicLog(InnerTopic(Destructure(payload.value).value.message).value)]
  {
    match payload
    case None => Dropped(ParseFailure, [ParseErrorLog])
    case Some(j) =>
      match Destructure(j)
      case None => Dropped(ParseFailure, [ParseErrorLog])
      case Some(f) =>
        if f.fromServer == Defined(JStr(n.serverName)) then Dropped(SelfEcho, [])
        else if f.toServer != Undefined && f.toServer != Defined(JStr(n.serverName)) then Dropped(AddressedElsewhere, [])
        else
          match InnerTopic(f.message)
          case None => Dropped(ParseFailure, [ParseErrorLog])
          case Some(topic) =>
            match Lookup(n.callbacks, topic)
            case None => Unknown(topic)
            case Some(listeners) =>
              if listeners == {} then Unknown(topic)
              else Delivered(listeners, f.message.value, f.fromServer)
  }

  /**
   In a table built by `Subscribe` no set is empty, so an admitted envelope
   is dropped as unknown exactly when its inner topic is not registered.
   */
  lemma UnknownMeansUnregistered(n: Node, channel: string, j: Json)
    requires NoEmptyEntries(n.callbacks)
    requires Destructure(j).Some? && Admits(n.serverName, Destructure(j).value)
    requires InnerTopic(Destructure(j).value.message).Some?
    ensures var d := OnMessage(n, channel, Some(j));
            d.Dropped? && d.reason == UnknownTopic <==>
              && Lookup(n.callbacks, InnerTopic(Destructure(j).value.message).value).None?
              && !TopicTextThrows(InnerTopic(Destructure(j).value.message).value)
  {
  }

  /**
   An admitted envelope whose inner topic cannot be written as text (an
   object with its own `toString` field, or an array holding one) is
   reported as a parse error, not as an unknown topic.
   */
  lemma UnprintableTopicIsParseError(n: Node, channel: string, j: Json)
    requires Destructure(j).Some? && Admits(n.serverName, Destructure(j).value)
    requires var topic := InnerTopic(Destructure(j).value.message);
             topic.Some? && topic.value.Defined? && ToStringThrows(topic.value.value)
    ensures OnMessage(n, channel, Some(j)) == Dropped(ParseFailure, [ParseErrorLog])
  {
  }

  /**
   A broadcast from "s2" whose inner topic is `{"toString": 0}` is a parse
   error at "s1", whatever the table holds.
   */
  lemma UnprintableTopicExample(n: Node)
    requires n.serverName == "s1"
    ensures var topic := JObj([("toString", JNum(0))]);
            var payload := JObj([("fromServer", JStr("s2")), ("message", JObj([("topic", topic)]))]);
            OnMessage(n, "0", Some(payload)) == Dropped(ParseFailure, [ParseErrorLog])
  {
    var topic := JObj([("toString", JNum(0))]);
    var message := JObj([("topic", topic)]);
    BroadcastFields("s2", message);
    assert Get(message.fields, "topic") == Defined(topic);
    assert topic.fields[0].0 == "toString";
    assert ToStringThrows(topic);
  }

  /** The channel argument of `onMessage` does not affect the outcome. */
  lemma ChannelIgnored(n: Node, c1: string, c2: string, payload: Option<Json>)
    ensures OnMessage(n, c1, payload) == OnMessage(n, c2, payload)
  {
  }

  /** `send`: a broadcast envelope on the channel of the message's topic. */
  function Send(n: Node, m: Message): (c: Command)
    ensures c.Publish? && c.channel == Channel(m.topic) && Decimal.ParseDecimal(c.channel) == Some(m.topic)
    ensures Destructure(c.payload) == Some(Fields(Defined(JStr(n.serverName)), Undefined, Defined(MessageJson(m))))
  {
    var e := Envelope(n.serverName, None, m);
    RoundTrip(e);
    Decimal.DecimalRoundTrip(m.topic);
    Publish(Channel(m.topic), Encode(e))
  }

  /** `sendDirect`: the same envelope, addressed to `toServer`. */
  function SendDirect(n: Node, toServer: string, m: Message): (c: Command)
    ensures c.Publish? && c.channel == Channel(m.topic) && Decimal.ParseDecimal(c.channel) == Some(m.topic)
    ensures Destructure(c.payload)
         == Some(Fields(Defined(JStr(n.serverName)), Defined(JStr(toServer)), Defined(MessageJson(m))))
  {
    var e := Envelope(n.serverName, Some(toServer), m);
    RoundTrip(e);
    Decimal.DecimalRoundTrip(m.topic);
    Publish(Channel(m.topic), Encode(e))
  }

  /** What a receiver with table `table` does with `m` when the envelope passes the filter. */
  function Fanout(table: Table, m: Message, origin: string): (d: Dispatch)
  {
    if m.topic in table && table[m.topic] != {} then Delivered(table[m.topic], MessageJson(m), Defined(JStr(origin)))
    else Dropped(UnknownTopic, [UnknownTopicLog(Defined(JNum(m.topic)))])
  }

  /**
   A broadcast reaches every listener another server has for its topic,
   with the message as sent and the sender's name, and never the sender.
   */
  lemma Broadcast(a: Node, b: Node, m: Message)
    requires a.serverName != b.serverName
    ensures var c := Send(a, m);
            && OnMessage(b, c.channel, Some(c.payload)) == Fanout(b.callbacks, m, a.serverName)
            && OnMessage(a, c.channel, Some(c.payload)) == Dropped(SelfEcho, [])
  {
    MessageTopicRoundTrip(m);
  }

  /**
   A directed envelope reaches the listeners of the server it names, and at
   any other server, sender included, it reaches nobody.
   */
  lemma Direct(a: Node, b: Node, toServer: string, m: Message)
    requires a.serverName != b.serverName
    ensures var c := SendDirect(a, toServer, m);
            && (b.serverName == toServer ==> OnMessage(b, c.channel, Some(c.payload)) == Fanout(b.callbacks, m, a.serverName))
            && (b.serverName != toServer ==> OnMessage(b, c.channel, Some(c.payload)) == Dropped(AddressedElsewhere, []))
            && OnMessage(a, c.channel, Some(c.payload)) == Dropped(SelfEcho, [])
  {
    MessageTopicRoundTrip(m);
  }

  datatype NodeWaited = NodeWaited(node: Node, outcome: Conn.WaitOutcome)

  /** `whenReady` waits on the publish connection only. */
  function WhenReady(n: Node, caller: Conn.CallerId): (r: NodeWaited)
    ensures r.outcome == Conn.ReturnedAtOnce <==> n.connection.isReady
    ensures r.node.connection == Conn.WhenReady(n.connection, caller).connection
    ensures r.node.callbacks == n.callbacks && r.node.subscribeConnection == n.subscribeConnection
    ensures r.node.serverName == n.serverName
  {
    var w := Conn.WhenReady(n.connection, caller);
    NodeWaited(n.(connection := w.connection), w.outcome)
  }

  /**
   A caller of the node's `whenReady` is resumed by the publish connection's
   `ready` event; the subscribe connection's `ready` event resumes only the
   callers it already had.
   */
  lemma WaiterResumedByPublisher(n: Node, caller: Conn.CallerId)
    requires !n.connection.isReady
    ensures var w := WhenReady(n, caller);
            && w.outcome == Conn.Suspended
            && Conn.OnReady(w.node.connection).resumed == n.connection.readyWaiters + [caller]
            && Conn.OnReady(w.node.subscribeConnection).resumed == n.subscribeConnection.readyWaiters
  {
  }

  datatype NodeClosing = NodeClosing(node: Node, command: Command)

  /** `close` quits the publish connection; the subscribe connection is left open. */
  function Close(n: Node, caller: Conn.CallerId): (r: NodeClosing)
    ensures r.command == Quit
    ensures r.node.connection.endListeners == [Conn.ResolveClose(caller)]
    ensures r.node.connection == Conn.Close(n.connection, caller).connection
    ensures r.node.callbacks == n.callbacks && r.node.subscribeConnection == n.subscribeConnection
    ensures r.node.serverName == n.serverName
  {
    var c := Conn.Close(n.connection, caller);
    NodeClosing(n.(connection := c.connection), c.command)
  }

  /**
   On a node whose connections each carry only the disconnect report, as
   both constructors leave them, `close` completes on the publish
   connection's `end` without a disconnect report, while an `end` on the
   subscribe connection is still reported as a fatal disconnect.
   */
  lemma CloseCoversPublisherOnly(n: Node, caller: Conn.CallerId)
    requires n.connection.endListeners == [Conn.ReportDisconnect]
    requires n.subscribeConnection.endListeners == [Conn.ReportDisconnect]
    ensures var r := Close(n, caller);
            && Conn.OnEnd(r.node.connection).closed == [caller]
            && Conn.OnEnd(r.node.connection).log == []
            && Conn.OnEnd(r.node.subscribeConnection).log == [Conn.Disconnected]
  {
    var r := Close(n, caller);
    assert Conn.EmitEnd(r.node.connection.endListeners) == Conn.Ended([caller], [], []);
    assert Conn.EmitEnd(r.node.subscribeConnection.endListeners)
        == Conn.Ended([], [Conn.Disconnected], [Conn.ReportDisconnect]);
  }

  /** The node the constructor as written builds meets the premise of `CloseCoversPublisherOnly`. */
  lemma CloseCoversPublisherOnlyAsWritten(serverName: string, pluginConfig: Option<Conn.Options>, caller: Conn.CallerId)
    requires NewNodeAsWritten(serverName, pluginConfig).Success?
    ensures var r := Close(NewNodeAsWritten(serverName, pluginConfig).value, caller);
            && Conn.OnEnd(r.node.connection).closed == [caller]
            && Conn.OnEnd(r.node.connection).log == []
            && Conn.OnEnd(r.node.subscribeConnection).log == [Conn.Disconnected]
  {
    CloseCoversPublisherOnly(NewNodeAsWritten(serverName, pluginConfig).value, caller);
  }
}

=== FILE: redis_connection.dfy ===
/**
 One connection to the Redis pub/sub transport: option validation and
 normalisation, the choice between a single-node and a cluster client, the
 sticky readiness latch, and the `end` listener discipline of `close`.
 */
module RedisConnection {
  import opened Wrappers
  import opened JsonValues
  import opened Logging
  import opened Transport

  /** A connection URL as the URL parser decomposes it. */
  datatype Url = Url(hostname: string, port: string, password: string)

  /**
   The options object, restricted to the keys the constructor reads; every
   other key is kept in `others`. `url` is None when the option is absent or
   falsy.
   */
  datatype Options = Options(
    url: Option<Url>,
    host: Property,
    port: Property,
    password: Property,
    nodes: Property,
    others: map<string, Json>)

  const MissingOptions := LogEntry(Fatal, "PLUGIN_INITIALIZATION_ERROR", Text("Missing option 'host' for redis-connector"))
  const NodesNotArray := LogEntry(Fatal, "PLUGIN_INITIALIZATION_ERROR", Text("Option nodes must be an array of connection parameters for cluster"))

  /** `nodes` is set to something other than an array. */
  predicate MalformedNodes(o: Options)
  {
    Truthy(o.nodes) && !o.nodes.value.JArr?
  }

  /**
   The fatal initialisation error for unusable options, if any. A missing
   options object is reported first.
   */
  function ValidateOptions(options: Option<Options>): (r: Option<LogEntry>)
    ensures r.Some? ==> r.value.level == Fatal && r.value.event == "PLUGIN_INITIALIZATION_ERROR"
    ensures options.None? <==> r == Some(MissingOptions)
    ensures r == Some(NodesNotArray) <==> options.Some? && MalformedNodes(options.value)
    ensures r.None? <==> options.Some? && !MalformedNodes(options.value)
  {
    match options
    case None => Some(MissingOptions)
    case Some(o) => if MalformedNodes(o) then Some(NodesNotArray) else None
  }

  /** A URL, when given, overrides host, port and password; nothing else is touched. */
  function NormaliseOptions(o: Options): (r: Options)
    ensures o.url.Some? ==>
              && r.host == Defined(JStr(o.url.value.hostname))
              && r.port == Defined(JStr(o.url.value.port))
              && r.password == Defined(JStr(o.url.value.password))
    ensures o.url.None? ==> r == o
    ensures r.url == o.url && r.nodes == o.nodes && r.others == o.others
  {
    match o.url
    case None => o
    case Some(u) => o.(host := Defined(JStr(u.hostname)), port := Defined(JStr(u.port)), password := Defined(JStr(u.password)))
  }

  lemma NormaliseIdempotent(o: Options)
    ensures NormaliseOptions(NormaliseOptions(o)) == NormaliseOptions(o)
  {
  }

  /** The client the connection drives, with the options it was built from. */
  datatype Client = Single(options: Options) | Cluster(nodes: seq<Json>, options: Options)

  /** The client, and the caller's options object as the constructor leaves it. */
  datatype Built = Built(client: Client, remaining: Options)

  /**
   A `nodes` array selects cluster mode and is deleted from the options;
   anything else builds a single-node client from the options as they are.
   */
  function BuildClient(o: Options): (b: Built)
    ensures b.client.Cluster? <==> o.nodes.Defined? && o.nodes.value.JArr?
    ensures b.client.Cluster? ==> b.client.nodes == o.nodes.value.items && b.client.options == o.(nodes := Undefined)
    ensures b.client.Single? ==> b.client.options == o
    ensures b.remaining == b.client.options
  {
    match o.nodes
    case Defined(JArr(items)) =>
      var rest := o.(nodes := Undefined);
      Built(Cluster(items, rest), rest)
    case _ => Built(Single(o), o)
  }

  type CallerId = nat

  /**
   A listener on the client's `end` event: the constructor's disconnect
   report, or the one-shot completion of a `close` call.
   */
  datatype EndListener = ReportDisconnect | ResolveClose(caller: CallerId)

  /**
   The state of one connection: its client, the readiness flag, the callers
   suspended in `whenReady` (in arrival order) and the `end` listeners.
   */
  datatype Connection = Connection(
    client: Client,
    isReady: bool,
    readyWaiters: seq<CallerId>,
    endListeners: seq<EndListener>)

  /** Once ready, nobody waits for readiness. */
  predicate Valid(c: Connection)
  {
    c.isReady ==> c.readyWaiters == []
  }

  /** A constructed connection and the caller's options object after construction. */
  datatype Construction = Construction(connection: Connection, options: Options)

  /**
   The constructor: validate, apply the URL, choose the client mode. The
   returned options are the caller's object as the constructor mutates it.
   */
  function Create(options: Option<Options>): (r: Result<Construction, LogEntry>)
    ensures r.Failure? <==> ValidateOptions(options).Some?
    ensures r.Failure? ==> r.error.level == Fatal
    ensures r.Success? ==>
              var c := r.value.connection;
              && !c.isReady && c.readyWaiters == [] && c.endListeners == [ReportDisconnect]
              && Valid(c)
              && (c.client.Cluster? <==> options.value.nodes.Defined? && options.value.nodes.value.JArr?)
              && c.client == BuildClient(NormaliseOptions(options.value)).client
              && (options.value.url.Some? ==>
                    && c.client.options.host == Defined(JStr(options.value.url.value.hostname))
                    && c.client.options.port == Defined(JStr(options.value.url.value.port))
                    && c.client.options.password == Defined(JStr(options.value.url.value.password)))
              && (options.value.url.None? ==>
                    && c.client.options.host == options.value.host
                    && c.client.options.port == options.value.port
                    && c.client.options.password == options.value.password)
              && (c.client.Single? ==> c.client.options.nodes == options.value.nodes)
              && (c.client.Cluster? ==> c.client.options.nodes == Undefined)
              && c.client.options.others == options.value.others
              && r.value.options == c.client.options
  {
    match ValidateOptions(options)
    case Some(fatal) => Failure(fatal)
    case None =>
      var built := BuildClient(NormaliseOptions(options.value));
      Success(Construction(Connection(built.client, false, [], [ReportDisconnect]), built.remaining))
  }

  /**
   The options object a successful construction leaves behind validates
   again, so a second construction from it cannot fail.
   */
  lemma LeftoverOptionsValidate(options: Option<Options>)
    requires Create(options).Success?
    ensures ValidateOptions(Some(Create(options).value.options)).None?
    ensures Create(Some(Create(options).value.options)).Success?
  {
    var o := options.value;
    assert !MalformedNodes(o);
    assert NormaliseOptions(o).nodes == o.nodes;
  }

  datatype WaitOutcome = ReturnedAtOnce | Suspended

  datatype Waited = Waited(connection: Connection, outcome: WaitOutcome)

  /** `whenReady`: return at once when ready, otherwise wait for the `ready` event. */
  function WhenReady(c: Connection, caller: CallerId): (r: Waited)
    ensures r.outcome == ReturnedAtOnce <==> c.isReady
    ensures c.isReady ==> r.connection == c
    ensures !c.isReady ==> r.connection == c.(readyWaiters := c.readyWaiters + [caller])
    ensures r.connection.isReady == c.isReady
  {
    if c.isReady then Waited(c, ReturnedAtOnce)
    else Waited(c.(readyWaiters := c.readyWaiters + [caller]), Suspended)
  }

  /** The callers a `ready` event resumes, in the order they arrived. */
  datatype Released = Released(connection: Connection, resumed: seq<CallerId>)

  /** The `ready` event: set the flag and release every one-shot waiter. */
  function OnReady(c: Connection): (r: Released)
    ensures r.connection.isReady && r.connection.readyWaiters == []
    ensures r.resumed == c.readyWaiters
    ensures r.connection.client == c.client && r.connection.endListeners == c.endListeners
    ensures Valid(r.connection)
  {
    Released(c.(isReady := true, readyWaiters := []), c.readyWaiters)
  }

  datatype Closing = Closing(connection: Connection, command: Command)

  /**
   `close`: drop every `end` listener (the disconnect report included),
   attach one completion for this caller, then send QUIT.
   */
  function Close(c: Connection, caller: CallerId): (r: Closing)
    ensures r.connection.endListeners == [ResolveClose(caller)]
    ensures r.command == Quit
    ensures r.connection.isReady == c.isReady && r.connection.readyWaiters == c.readyWaiters
    ensures r.connection.client == c.client
  {
    Closing(c.(endListeners := [ResolveClose(caller)]), Quit)
  }

  /** A transport error is fatal. */
  function OnError(error: string): (e: LogEntry)
    ensures e.level == Fatal && e.event == "REDIS_CONNECTION_ERROR"
    ensures e.detail == Text("REDIS error: " + error)
  {
    LogEntry(Fatal, "REDIS_CONNECTION_ERROR", Text("REDIS error: " + error))
  }

  /** The fatal report of an unplanned disconnect. */
  const Disconnected := OnError("disconnected")

  /** What the listeners of one `end` event do. */
  datatype Ended = Ended(closed: seq<CallerId>, log: seq<LogEntry>, kept: seq<EndListener>)

  /**
   Runs the `end` listeners in order: close completions resolve and are
   removed, disconnect reports log and stay.
   */
  function EmitEnd(listeners: seq<EndListener>): (r: Ended)
    ensures forall e :: e in r.log ==> e == Disconnected
    ensures |r.kept| == |r.log| && forall l :: l in r.kept ==> l == ReportDisconnect
    decreases |listeners|
  {
    if |listeners| == 0 then Ended([], [], [])
    else
      var rest := EmitEnd(listeners[1..]);
      match listeners[0]
      case ReportDisconnect => Ended(rest.closed, [Disconnected] + rest.log, [ReportDisconnect] + rest.kept)
      case ResolveClose(w) => Ended([w] + rest.closed, rest.log, rest.kept)
  }

  /** One fatal disconnect is logged per disconnect listener. */
  lemma {:induction false} EmitEndLogCount(listeners: seq<EndListener>)
    ensures |EmitEnd(listeners).log| == multiset(listeners)[ReportDisconnect]
    decreases |listeners|
  {
    if |listeners| > 0 {
      EmitEndLogCount(listeners[1..]);
      assert listeners == [listeners[0]] + listeners[1..];
      assert multiset(listeners) == multiset{listeners[0]} + multiset(listeners[1..]);
    }
  }

  /** Each pending close is completed once per completion listener. */
  lemma {:induction false} EmitEndClosedCount(listeners: seq<EndListener>, w: CallerId)
    ensures multiset(EmitEnd(listeners).closed)[w] == multiset(listeners)[ResolveClose(w)]
    decreases |listeners|
  {
    if |listeners| > 0 {
      var rest := EmitEnd(listeners[1..]);
      EmitEndClosedCount(listeners[1..], w);
      assert listeners == [listeners[0]] + listeners[1..];
      assert multiset(listeners) == multiset{listeners[0]} + multiset(listeners[1..]);
      if listeners[0].ResolveClose? {
        var v := listeners[0].caller;
        assert EmitEnd(listeners).closed == [v] + rest.closed;
        assert multiset([v] + rest.closed) == multiset{v} + multiset(rest.closed);
      } else {
        assert EmitEnd(listeners).closed == rest.closed;
      }
    }
  }

  /**
   One `end` event logs one fatal disconnect per disconnect listener and
   completes each pending close once per completion listener.
   */
  lemma EmitEndCounts(listeners: seq<EndListener>)
    ensures |EmitEnd(listeners).log| == multiset(listeners)[ReportDisconnect]
    ensures forall w :: multiset(EmitEnd(listeners).closed)[w] == multiset(listeners)[ResolveClose(w)]
  {
    EmitEndLogCount(listeners);
    forall w {
      EmitEndClosedCount(listeners, w);
    }
  }

  /**
   Listeners run in order: the closes completed by `a + b` are those of `a`
   followed by those of `b`, and likewise for the log.
   */
  lemma {:induction false} EmitEndInOrder(a: seq<EndListener>, b: seq<EndListener>)
    ensures EmitEnd(a + b).closed == EmitEnd(a).closed + EmitEnd(b).closed
    ensures EmitEnd(a + b).log == EmitEnd(a).log + EmitEnd(b).log
    decreases |a|
  {
    if |a| == 0 {
      assert a + b == b;
    } else {
      assert (a + b)[0] == a[0];
      assert (a + b)[1..] == a[1..] + b;
      EmitEndInOrder(a[1..], b);
    }
  }

  datatype EndOutcome = EndOutcome(connection: Connection, closed: seq<CallerId>, log: seq<LogEntry>)

  /** The `end` event. */
  function OnEnd(c: Connection): (r: EndOutcome)
    ensures forall w :: w in r.closed <==> ResolveClose(w) in c.endListeners
    ensures r.log != [] <==> ReportDisconnect in c.endListeners
    ensures forall e :: e in r.log ==> e == Disconnected
    ensures |r.log| == multiset(c.endListeners)[ReportDisconnect]
    ensures forall l :: l in r.connection.endListeners ==> l == ReportDisconnect
    ensures |r.connection.endListeners| == |r.log|
    ensures r.connection == c.(endListeners := r.connection.endListeners)
  {
    var e := EmitEnd(c.endListeners);
    EmitEndCounts(c.endListeners);
    assert forall w :: w in e.closed <==> multiset(e.closed)[w] > 0;
    assert forall w :: ResolveClose(w) in c.endListeners <==> multiset(c.endListeners)[ResolveClose(w)] > 0;
    EndOutcome(c.(endListeners := e.kept), e.closed, e.log)
  }

  /** What can happen to a connection: calls from callers and events from the client. */
  datatype Event =
    | WaitCall(caller: CallerId)
    | CloseCall(caller: CallerId)
    | ReadyEvent
    | ErrorEvent(error: string)
    | EndEvent

  /**
   The observable effects of a run: callers resumed by `ready`, callers whose
   `whenReady` returned at once, callers whose `close` completed, commands
   sent and log entries.
   */
  datatype Run = Run(
    connection: Connection,
    resumed: seq<CallerId>,
    atOnce: seq<CallerId>,
    closed: seq<CallerId>,
    commands: seq<Command>,
    log: seq<LogEntry>)

  function Step(c: Connection, e: Event): (r: Run)
  {
    match e
    case WaitCall(w) =>
      var r := WhenReady(c, w);
      Run(r.connection, [], if r.outcome == ReturnedAtOnce then [w] else [], [], [], [])
    case CloseCall(w) =>
      var r := Close(c, w);
      Run(r.connection, [], [], [], [r.command], [])
    case ReadyEvent =>
      var r := OnReady(c);
      Run(r.connection, r.resumed, [], [], [], [])
    case ErrorEvent(msg) =>
      Run(c, [], [], [], [], [OnError(msg)])
    case EndEvent =>
      var r := OnEnd(c);
      Run(r.connection, [], [], r.closed, [], r.log)
  }

  /** Applies the events of `t` in order. */
  function RunEvents(c: Connection, t: seq<Event>): (r: Run)
    decreases |t|
  {
    if |t| == 0 then Run(c, [], [], [], [], [])
    else
      var first := Step(c, t[0]);
      var rest := RunEvents(first.connection, t[1..]);
      Run(rest.connection,
          first.resumed + rest.resumed,
          first.atOnce + rest.atOnce,
          first.closed + rest.closed,
          first.commands + rest.commands,
          first.log + rest.log)
  }

  /** The callers of `whenReady` in `t`, in order. */
  function Waits(t: seq<Event>): (callers: seq<CallerId>)
    decreases |t|
  {
    if |t| == 0 then []
    else (if t[0].WaitCall? then [t[0].caller] else []) + Waits(t[1..])
  }

  /** The callers of `whenReady` before the first `ready` event of `t`. */
  function WaitsBeforeReady(t: seq<Event>): (callers: seq<CallerId>)
    decreases |t|
  {
    if |t| == 0 || t[0] == ReadyEvent then []
    else (if t[0].WaitCall? then [t[0].caller] else []) + WaitsBeforeReady(t[1..])
  }

  /** The callers of `whenReady` after the first `ready` event of `t`. */
  function WaitsAfterReady(t: seq<Event>): (callers: seq<CallerId>)
    decreases |t|
  {
    if |t| == 0 then []
    else if t[0] == ReadyEvent then Waits(t[1..])
    else WaitsAfterReady(t[1..])
  }

  /** What one call or event does to the readiness latch. */
  lemma StepLatch(c: Connection, e: Event)
    ensures var r := Step(c, e);
            && (e == ReadyEvent ==>
                  r.connection.isReady && r.connection.readyWaiters == []
                  && r.resumed == c.readyWaiters && r.atOnce == [])
            && (e.WaitCall? && !c.isReady ==>
                  !r.connection.isReady && r.connection.readyWaiters == c.readyWaiters + [e.caller]
                  && r.resumed == [] && r.atOnce == [])
            && (e.WaitCall? && c.isReady ==>
                  r.connection.isReady && r.connection.readyWaiters == c.readyWaiters
                  && r.resumed == [] && r.atOnce == [e.caller])
            && (e != ReadyEvent && !e.WaitCall? ==>
                  r.connection.isReady == c.isReady && r.connection.readyWaiters == c.readyWaiters
                  && r.resumed == [] && r.atOnce == [])
  {
  }

  /** After readiness every `whenReady` returns at once and nobody is resumed. */
  lemma {:induction false} LatchAfterReady(c: Connection, t: seq<Event>)
    requires c.isReady && c.readyWaiters == []
    ensures var r := RunEvents(c, t);
            && r.connection.isReady && r.connection.readyWaiters == []
            && r.resumed == [] && r.atOnce == Waits(t)
    decreases |t|
  {
    if |t| > 0 {
      StepLatch(c, t[0]);
      LatchAfterReady(Step(c, t[0]).connection, t[1..]);
    }
  }

  /** Until a `ready` event, every `whenReady` caller joins the waiters. */
  lemma {:induction false} LatchBeforeReady(c: Connection, t: seq<Event>)
    requires !c.isReady && ReadyEvent !in t
    ensures var r := RunEvents(c, t);
            && !r.connection.isReady
            && r.resumed == [] && r.atOnce == []
            && r.connection.readyWaiters == c.readyWaiters + Waits(t)
    decreases |t|
  {
    if |t| > 0 {
      assert t == [t[0]] + t[1..];
      var first := Step(c, t[0]);
      var c1 := first.connection;
      var rest := RunEvents(c1, t[1..]);
      var r := RunEvents(c, t);
      assert r.resumed == first.resumed + rest.resumed;
      assert r.atOnce == first.atOnce + rest.atOnce;
      assert r.connection == rest.connection;
      assert t[0] != ReadyEvent && ReadyEvent !in t[1..];
      LatchBeforeReady(c1, t[1..]);
      StepLatch(c, t[0]);
      if t[0].WaitCall? {
        assert c1.readyWaiters == c.readyWaiters + [t[0].caller];
        assert Waits(t) == [t[0].caller] + Waits(t[1..]);
      } else {
        assert c1.readyWaiters == c.readyWaiters;
        assert Waits(t) == Waits(t[1..]);
      }
    }
  }

  /** Before readiness, one call or event other than `ready` resumes nobody. */
  lemma StepBeforeReady(c: Connection, e: Event)
    requires !c.isReady && e != ReadyEvent
    ensures var r := Step(c, e);
            && !r.connection.isReady && r.resumed == [] && r.atOnce == []
            && r.connection.readyWaiters == c.readyWaiters + (if e.WaitCall? then [e.caller] else [])
  {
    StepLatch(c, e);
  }

  /** A trace that opens with `ready` resumes every waiter and nobody after. */
  lemma ReadyFirst(c: Connection, t: seq<Event>)
    requires |t| > 0 && t[0] == ReadyEvent
    ensures var r := RunEvents(c, t);
            && r.connection.isReady && r.connection.readyWaiters == []
            && r.resumed == c.readyWaiters + WaitsBeforeReady(t)
            && r.atOnce == WaitsAfterReady(t)
  {
    var first := Step(c, t[0]);
    StepLatch(c, t[0]);
    LatchAfterReady(first.connection, t[1..]);
    assert WaitsBeforeReady(t) == [];
  }

  /**
   The first `ready` event resumes every caller waiting by then, once each
   and in arrival order; callers after it return at once.
   */
  lemma {:induction false} LatchFirstReady(c: Connection, t: seq<Event>)
    requires !c.isReady && ReadyEvent in t
    ensures var r := RunEvents(c, t);
            && r.connection.isReady && r.connection.readyWaiters == []
            && r.resumed == c.readyWaiters + WaitsBeforeReady(t)
            && r.atOnce == WaitsAfterReady(t)
    decreases |t|
  {
    if t[0] == ReadyEvent {
      ReadyFirst(c, t);
    } else {
      var first := Step(c, t[0]);
      var extra := if t[0].WaitCall? then [t[0].caller] else [];
      StepBeforeReady(c, t[0]);
      assert ReadyEvent in t[1..] by {
        assert t == [t[0]] + t[1..];
      }
      LatchFirstReady(first.connection, t[1..]);
      assert WaitsBeforeReady(t) == extra + WaitsBeforeReady(t[1..]);
      assert WaitsAfterReady(t) == WaitsAfterReady(t[1..]);
      assert c.readyWaiters + extra + WaitsBeforeReady(t[1..])
          == c.readyWaiters + (extra + WaitsBeforeReady(t[1..]));
    }
  }

  /**
   The latch over any sequence of calls and events. Readiness is sticky and
   becomes true exactly when a `ready` event occurs. Before it, `whenReady`
   callers wait. The first `ready` event resumes every waiting caller once,
   in arrival order. Later callers return at once and never wait.
   */
  lemma Latch(c: Connection, t: seq<Event>)
    requires Valid(c)
    ensures var r := RunEvents(c, t);
            && r.connection.isReady == (c.isReady || ReadyEvent in t)
            && Valid(r.connection)
            && (if c.isReady then
                  r.resumed == [] && r.atOnce == Waits(t)
                else if ReadyEvent in t then
                  && r.resumed == c.readyWaiters + WaitsBeforeReady(t)
                  && r.atOnce == WaitsAfterReady(t)
                else
                  && r.resumed == [] && r.atOnce == []
                  && r.connection.readyWaiters == c.readyWaiters + Waits(t))
  {
    if c.isReady {
      LatchAfterReady(c, t);
    } else if ReadyEvent in t {
      LatchFirstReady(c, t);
    } else {
      LatchBeforeReady(c, t);
    }
  }

  lemma {:induction false} WaitsSplitAtReady(t: seq<Event>)
    requires ReadyEvent in t
    ensures Waits(t) == WaitsBeforeReady(t) + WaitsAfterReady(t)
    decreases |t|
  {
    if t[0] != ReadyEvent {
      assert ReadyEvent in t[1..] by {
        assert t == [t[0]] + t[1..];
      }
      WaitsSplitAtReady(t[1..]);
    }
  }

  /**
   On a fresh connection, once a `ready` event has occurred, every
   `whenReady` caller has been released exactly once: either it returned at
   once or the event resumed it.
   */
  lemma EveryWaiterReleasedOnce(c: Connection, t: seq<Event>)
    requires !c.isReady && c.readyWaiters == []
    requires ReadyEvent in t
    ensures var r := RunEvents(c, t);
            multiset(r.resumed) + multiset(r.atOnce) == multiset(Waits(t))
  {
    Latch(c, t);
    WaitsSplitAtReady(t);
    var r := RunEvents(c, t);
    assert r.resumed == WaitsBeforeReady(t);
  }

  /** A `close` followed by `end` completes that close and reports no disconnect. */
  lemma CloseThenEnd(c: Connection, caller: CallerId)
    ensures var r := RunEvents(c, [CloseCall(caller), EndEvent]);
            r.closed == [caller] && r.log == [] && r.commands == [Quit]
            && r.connection.endListeners == []
  {
    var c1 := Close(c, caller).connection;
    assert EmitEnd(c1.endListeners) == Ended([caller], [], []);
    var t := [CloseCall(caller), EndEvent];
    assert t[1..] == [EndEvent];
    assert [EndEvent][1..] == [];
    var end := RunEvents(c1, [EndEvent]);
    assert end.closed == [caller] && end.log == [] && end.commands == [];
  }

  /** Without a `close`, `end` on a new connection is reported as a fatal disconnect. */
  lemma EndWithoutCloseIsFatal(options: Option<Options>)
    requires Create(options).Success?
    ensures var r := OnEnd(Create(options).value.connection);
            r.log == [Disconnected] && r.closed == []
  {
    var c := Create(options).value.connection;
    assert EmitEnd(c.endListeners) == Ended([], [Disconnected], [ReportDisconnect]);
  }

  /**
   A second `close` before `end` removes the completion of the first: only
   the latest caller is resumed.
   */
  lemma LatestCloseWins(c: Connection, first: CallerId, second: CallerId)
    ensures var r := RunEvents(c, [CloseCall(first), CloseCall(second), EndEvent]);
            r.closed == [second] && r.commands == [Quit, Quit] && r.log == []
  {
    var c1 := Close(c, first).connection;
    var t := [CloseCall(first), CloseCall(second), EndEvent];
    assert t[1..] == [CloseCall(second), EndEvent];
    CloseThenEnd(c1, second);
    var mid := RunEvents(c1, t[1..]);
    assert mid.closed == [second] && mid.log == [] && mid.commands == [Quit];
  }
}

=== FILE: transport.dfy ===
/** The commands issued to the underlying pub/sub client. */
module Transport {
  import opened JsonValues

  datatype Command =
    | Publish(channel: string, payload: Json)
    | SubscribeTo(channel: string)
    | Quit
}

=== FILE: wrappers.dfy ===
/** Option and result wrappers shared by the other modules. */
module Wrappers {

  /** A value that may be absent. */
  datatype Option<+T> = None | Some(value: T)

  /** Either a value or the error that stopped its computation. */
  datatype Result<+R, +E> = Success(value: R) | Failure(error: E)
}
